=== FILE: README.md ===
# Congressional bill search: the string-parsing core

`F-TMP-LEG/uscongress_search.py` drives the govtrack.us bill browser through a
headless browser. Underneath that, the script has a small amount of logic of
its own. It turns the text of page elements into records:

- the count of a check-box `Choice`;
- a congress `<option>` such as `116: 2019-2020 (N bills)`, cut into congress, years and count;
- a committee `<option>`, cut into name and count around the first `(`;
- the `BillType` table, with its look-ups by value token and by member name;
- one result row (`Bill`): the anchor text `"<TYPE> <ID>: <title>"` and the `<br>`-separated table cells.

This project models that logic in Dafny. Each element attribute the script reads with
`get_attribute` (`value`, `innerHTML`, `href`) is a plain string input. The cells of a
result row are a `seq<string>`. Every exception the code can raise becomes a `Failure`
value. The error kinds are an index past the end of a split or of a row with fewer than three cells (`IndexError`), the
`'__ALL__'` sentinel (`ValueIsAll`), an unknown member name (`InvalidName`) and an
unknown type token (`UnknownValue`).

The parsing rests on Python's string primitives, so those are modelled with their edge cases (`pystr.dfy`); `lower()`/`upper()` are the one exception: only the mappings that produce an ASCII letter are modelled, and every other character is returned unchanged (see "## Left out"):

- `find` answers -1 when the text is absent;
- `split(sep)` cuts at every non-overlapping occurrence;
- slices clamp their bounds and read negative indices from the end;
- `strip()` removes the characters of `str.isspace`;
- `replace` deletes every non-overlapping occurrence from the left, and with an empty pattern inserts the replacement before every character and at the end;
- `lower()`/`upper()` map character by character: A-Z and KELVIN SIGN for `lower`, a-z, LONG S and DOTLESS I for `upper`; every other character is returned unchanged.

Files:

- `results.dfy`: `Option`, `Result`, the error kinds, and list indexing.
- `pystr.dfy`: the Python `str` operations and their laws (split/join, replace as split-then-join, deleting one character as filtering it out, slicing round trip, stripping).
- `text.dfy`: the bracket removal `.replace('(', '').replace(')', '')`.
- `bill_types.dfy`: the `BillType` table and `from_value`, `from_name` and `is_valid`.
- `search_options.dfy`: `Choice`, `CongressOption` and `CommiteeOption`, with their getters.
- `bills.dfy`: `Bill.__init__` (title line and table cells) and `get_progression`.

## Model

| member | source | states |
|---|---|---|
| Results.Index | F-TMP-LEG/uscongress_search.py:276 | `xs[i]` yields the element exactly when `i` is below the length, and raises `IndexError` otherwise |
| PyStr.Find | F-TMP-LEG/uscongress_search.py:80 | the answer is -1 exactly when the text does not occur; otherwise the text occurs at the answer and at no earlier position |
| PyStr.Split | F-TMP-LEG/uscongress_search.py:44 | there is always at least one piece; there are two or more exactly when the separator occurs; piece 0 is the text before the first occurrence and piece 1 the text between the first and second; no piece contains the separator |
| PyStr.SplitJoin | F-TMP-LEG/uscongress_search.py:44 | joining the pieces of `split(sep)` with `sep` gives back the original text, for every text |
| PyStr.SplitKeepsChars | F-TMP-LEG/uscongress_search.py:287 | every character of a piece occurs in the text that was split |
| PyStr.SplitOnce | F-TMP-LEG/uscongress_search.py:273 | `a + sep + b` splits into exactly `[a, b]` when the separator's first character is not in `a` and one of its characters is not in `b`, so no occurrence can start inside either side |
| PyStr.ClampIndex | F-TMP-LEG/uscongress_search.py:81 | a slice bound within the text is kept, a negative one counts from the end, and one outside the text is clamped to its nearer end |
| PyStr.Slice | F-TMP-LEG/uscongress_search.py:46 | the result is never longer than the text; in-range bounds give the plain sub-sequence; bounds that are inverted after normalisation give the empty text, and ordered normalised bounds give the run between them (so `s[-2:]` is the last two characters) |
| PyStr.SliceConcat | F-TMP-LEG/uscongress_search.py:81-82 | `s[0:k] + s[k:] == s` for every integer `k`, negative or past the end included |
| PyStr.Strip | F-TMP-LEG/uscongress_search.py:274 | the result neither starts nor ends with whitespace, uses only characters of the input, and is empty exactly when the input is all whitespace |
| PyStr.StripSurrounded | F-TMP-LEG/uscongress_search.py:274 | stripping whitespace padding off unpadded text gives back that text |
| PyStr.Replace | F-TMP-LEG/uscongress_search.py:50 | a text in which the pattern does not occur comes back unchanged |
| PyStr.ReplaceIsSplitJoin | F-TMP-LEG/uscongress_search.py:50 | `s.replace(p, r)` equals `r.join(s.split(p))` for every non-empty pattern |
| PyStr.DeleteKeepsChars | F-TMP-LEG/uscongress_search.py:50 | deleting a pattern never introduces a character that was not in the text |
| PyStr.ReplaceCharIsWithout | F-TMP-LEG/uscongress_search.py:25 | deleting a one-character pattern is the same as filtering that character out |
| PyStr.Lower | F-TMP-LEG/uscongress_search.py:254 | the length is kept and each character is mapped by `LowerChar` (A-Z and KELVIN SIGN lowered, every other character unchanged) |
| PyStr.Upper | F-TMP-LEG/uscongress_search.py:247 | the length is kept and each character is mapped by `UpperChar` (a-z, LONG S and DOTLESS I raised, every other character unchanged) |
| Text.RemoveParens | F-TMP-LEG/uscongress_search.py:25 | the result is the input with every `(` and `)` filtered out, contains neither bracket, and uses only the input's characters |
| Text.RemoveParensKeepsPlainText | F-TMP-LEG/uscongress_search.py:25 | text without brackets passes through unchanged |
| Text.RemoveEnclosingParens | F-TMP-LEG/uscongress_search.py:287 | a bracket pair around bracket-free text is dropped and the text is kept |
| BillTypes.Position | F-TMP-LEG/uscongress_search.py:233-242 | every member has a place in declaration order, which is the order `for btype in cls` visits |
| BillTypes.PositionOfMember | F-TMP-LEG/uscongress_search.py:233-242 | each member is listed once, so a member's place gives it back |
| BillTypes.LowerTokenIsLower | F-TMP-LEG/uscongress_search.py:254 | the written-out lower-case tokens are `btype.value['value'].lower()` |
| BillTypes.FirstMember | F-TMP-LEG/uscongress_search.py:253-255 | the loop stops at the first member in declaration order that passes the test, or reports that none passes |
| BillTypes.FirstMemberFacts | F-TMP-LEG/uscongress_search.py:253-256 | the loop finds nothing exactly when no member passes; otherwise it finds a passing member and no earlier member passes |
| BillTypes.FromValue | F-TMP-LEG/uscongress_search.py:251-256 | succeeds exactly when some member's token equals the value ignoring case; answers the first such member in declaration order; raises `UnknownValue(v)` otherwise |
| BillTypes.FromName | F-TMP-LEG/uscongress_search.py:244-249 | succeeds exactly when the upper-cased argument is a member name; answers the argument itself, not a member; raises `InvalidName(n)` otherwise |
| BillTypes.IsValid | F-TMP-LEG/uscongress_search.py:258-264 | true exactly when `from_name` does not raise, that is exactly when the upper-cased argument is a member name |
| BillTypes.TokensDistinct | F-TMP-LEG/uscongress_search.py:233-242 | no two members have tokens that are equal ignoring case |
| BillTypes.FromValueFindsMatch | F-TMP-LEG/uscongress_search.py:251-256 | a value equal to a member's token ignoring case finds exactly that member |
| BillTypes.FromValueRoundTrip | F-TMP-LEG/uscongress_search.py:233-256 | each member's token, as written or lower-cased, looks up that member |
| BillTypes.FromValueIgnoresCase | F-TMP-LEG/uscongress_search.py:252-254 | two values with the same lower case have the same look-up outcome |
| BillTypes.FromNameRoundTrip | F-TMP-LEG/uscongress_search.py:244-264 | every member name is accepted by `from_name`, which hands the name back, and is valid |
| BillTypes.LabelIsNotAName | F-TMP-LEG/uscongress_search.py:235-264 | the label of every member (`House Bill`, `All Bills`, ...) is rejected by `from_name`, since each label is longer than any name |
| SearchOptions.Guarded | F-TMP-LEG/uscongress_search.py:52-54 | `check_value` raises `ValueIsAll` exactly for the sentinel value and lets the value through otherwise |
| SearchOptions.ParseChoice | F-TMP-LEG/uscongress_search.py:25 | the count is the count text with every bracket filtered out, so it contains no bracket |
| SearchOptions.ParseCongressOption | F-TMP-LEG/uscongress_search.py:40-50 | the sentinel always parses, with no details; any other value fails with `IndexError` exactly when the text has no `': '` or its period has no `-`; on success the congress is the text before the first `': '`, the years are the pieces of the 9-character period, and the count contains no bracket |
| SearchOptions.CongressMeeting | F-TMP-LEG/uscongress_search.py:56-58 | raises `ValueIsAll` exactly on the sentinel, otherwise answers the parsed congress |
| SearchOptions.CongressStartYear | F-TMP-LEG/uscongress_search.py:60-62 | raises `ValueIsAll` exactly on the sentinel, otherwise answers the parsed start year |
| SearchOptions.CongressEndYear | F-TMP-LEG/uscongress_search.py:64-66 | raises `ValueIsAll` exactly on the sentinel, otherwise answers the parsed end year |
| SearchOptions.CongressBills | F-TMP-LEG/uscongress_search.py:68-70 | raises `ValueIsAll` exactly on the sentinel, otherwise answers the parsed count |
| SearchOptions.CatchAllCongressOption | F-TMP-LEG/uscongress_search.py:43-73 | the sentinel option is built from any text; `get_value` answers it; every other getter raises |
| SearchOptions.CleanBillCount | F-TMP-LEG/uscongress_search.py:50 | the clean-up of `" (<n> bills)"` leaves `"<n> "`, keeping the space that stood before `bills` |
| SearchOptions.TypicalYears | F-TMP-LEG/uscongress_search.py:47-49 | a `yyyy-yyyy` period splits into its two years |
| SearchOptions.ParseTypicalCongressOption | F-TMP-LEG/uscongress_search.py:43-50 | an option text printed as `"<congress>: <yyyy>-<yyyy> (<n> bills)"` parses back to that congress, both years and `"<n> "` |
| SearchOptions.ParseCommitteeOption | F-TMP-LEG/uscongress_search.py:76-82 | name followed by count is the option text, for every text; with a `(` at position p ≥ 1 the cut is one character before it; with p = 0 the count is the last character; with no `(` the count is the last two characters |
| SearchOptions.CommitteeElement | F-TMP-LEG/uscongress_search.py:88-90 | raises `ValueIsAll` exactly on the sentinel, otherwise answers the element |
| SearchOptions.CommitteeValue | F-TMP-LEG/uscongress_search.py:92-94 | raises `ValueIsAll` exactly on the sentinel, unlike the congress option's `get_value` |
| SearchOptions.CommitteeName | F-TMP-LEG/uscongress_search.py:96-98 | raises `ValueIsAll` exactly on the sentinel, otherwise answers the name |
| SearchOptions.CommitteeBillsIntroduced | F-TMP-LEG/uscongress_search.py:100-102 | raises `ValueIsAll` exactly on the sentinel, otherwise answers the count |
| SearchOptions.ParseTypicalCommitteeOption | F-TMP-LEG/uscongress_search.py:79-82 | `"<name> (<n>)"` splits into the name and `" (<n>)"` |
| SearchOptions.CommitteeOptionWithoutBracket | F-TMP-LEG/uscongress_search.py:79-82 | text without `(` loses its last two characters to the count |
| Bills.ParseTitle | F-TMP-LEG/uscongress_search.py:273-277 | succeeds exactly when the anchor text has a colon, its stripped id part has a space, and the type token matches a member; the title is the stripped second colon-piece and contains no colon; the id is the second space-piece and contains no space; a well-shaped text with an unknown token raises `UnknownValue` of that token, and a text with no colon, or whose id part has no space, raises `IndexError` |
| Bills.TypicalTitleParses | F-TMP-LEG/uscongress_search.py:273-277 | `"<tok> <id>: <title>"` parses to that id and title and to the member the token looks up |
| Bills.ParseTypicalTitle | F-TMP-LEG/uscongress_search.py:273-277 | the anchor text the results page prints for a member, an id and a title parses back to exactly those three |
| Bills.ParseProgression | F-TMP-LEG/uscongress_search.py:288-293 | fails only for four cells whose non-empty last cell has no `<br>`; leaves the attribute unset exactly for an empty fourth cell; otherwise a progression is present exactly for four cells, and it is the last cell's second line |
| Bills.ParseCosponsors | F-TMP-LEG/uscongress_search.py:285-287 | the count is the stripped line up to its first space; the party list is empty exactly when the stripped line has no space; otherwise the parties joined with commas are the second space-separated word with its brackets removed, and no party contains a bracket or comma |
| Bills.Parties | F-TMP-LEG/uscongress_search.py:287 | the parties joined with commas give back the word with its brackets removed, and no party contains a bracket or comma |
| Bills.ParseTypicalCosponsors | F-TMP-LEG/uscongress_search.py:285-287 | a cosponsor line `<n> (<a>,<b>)` yields the count `n` and the parties `[a, b]` |
| Bills.ParseCells | F-TMP-LEG/uscongress_search.py:278-293 | succeeds exactly when there are at least three cells, the introduced and cosponsor cells have a `<br>`, and, when there are exactly four cells, a non-empty fourth cell has a `<br>`; the stage date is absent exactly when the stage cell has no `<br>`; the cosponsor count and party list are exactly what `Bills.ParseCosponsors` reads from the cosponsor cell's second line |
| Bills.ParseBill | F-TMP-LEG/uscongress_search.py:267-293 | succeeds exactly when both the title and the cells parse; a title failure is the row's failure; the only failures are `IndexError` and an unknown type token, and a row whose title parses but whose cells do not fails with `IndexError`; every field is the one the title or the cells yield |
| Bills.GetProgression | F-TMP-LEG/uscongress_search.py:319-323 | answers a progression exactly when one was assigned, answers the assigned value itself, and maps an unset attribute to `None` |
| Bills.ParseBillSucceedsIff | F-TMP-LEG/uscongress_search.py:273-293 | a row is read exactly when it has the shape the constructor needs: title colon, id space, known token, three cells with `<br>` where indexed, and, when there are exactly four cells, a `<br>` in a non-empty fourth cell |
| Bills.UnknownTypeRejected | F-TMP-LEG/uscongress_search.py:277 | a well-shaped title whose type token matches no member makes construction raise `UnknownValue` of the token, whatever the cells |
| Bills.ProgressionSlot | F-TMP-LEG/uscongress_search.py:288-323 | a bill whose progression came from its cells reports one exactly for four cells with a non-empty last one, and it is that cell's second line |
| Bills.ProgressionPresence | F-TMP-LEG/uscongress_search.py:288-323 | `get_progression()` of a parsed row answers exactly for four cells with a non-empty last one, and answers that cell's second line |
| Bills.TokenShape | F-TMP-LEG/uscongress_search.py:234-242 | no token contains a colon or a space, and none starts with whitespace |

## Left out

- The browser: all element navigation (`find_element(s)_by_*`, `divs[1]`, the table lookup), the `SearchForm` class, the module-level driver set-up, `wait_for_results` and the modal handling. These are I/O over a library that is not part of this model. Attribute values arrive as string inputs instead.
- `Choice.input`, the label element, `click()` and the `get_*` accessors of `Choice`: these are element handles with no logic. Only the name and the count text are modelled.
- `CommiteeOption.option` is kept as an opaque value of a type parameter, since it is a browser element.
- `Bill`'s `content is None` test: `get_attribute` returning `None` is not modelled, because every attribute is a string here. The empty-content early return is modelled, and it leaves `progression` unset.
- The exception messages. Only the kind of each exception is kept, and the offending name or value for the two `BillType` errors.
- `PyStr.Lower`, `PyStr.Upper`: only the mappings that produce an ASCII letter are modelled: A-Z and KELVIN SIGN (to `k`) for `lower`; a-z, LONG S (to `S`) and DOTLESS I (to `I`) for `upper`. Every other character is returned unchanged. That differs from Python for most cased letters (`'À'.lower()` is `'à'`, and `'ß'.upper()` is `'SS'`), but none of those mappings can produce an ASCII letter, so it cannot change whether a value matches a bill-type token or a member name.
- The `SortOrder` enum: static data used only to choose a `<select>` entry.
- `ukparliament.py` and `ukparliament_search.py` are not part of this model: they hold enum catalogs with no operations, form filling and DOM traversal.
- A round trip through a member by name: `from_name` returns its argument string, not a member, so `from_value(from_name(n).value)` cannot be stated. `BillTypes.FromNameRoundTrip` states what does hold.
- SearchOptions.ParseCongressOption: for arbitrary text the contract says only that the count has no brackets. The exact clean-up result is stated for the printed layout, by `SearchOptions.ParseTypicalCongressOption`. For other text the general formula would only repeat the chain of `replace` and `strip` calls.
- `CongressOption.get_value` (`SearchOptions.CongressValue`) carries no contract of its own. It never raises, which `SearchOptions.CatchAllCongressOption` states for the sentinel.

## Notes on the code as written

These behaviours of the code look accidental. The model keeps them and states them.

- A congress count keeps a trailing space (`"123 "`), because `strip()` runs before `bills` is deleted. See `SearchOptions.ParseTypicalCongressOption`.
- A committee text without `(` still loses its last two characters to the count, because `find` answers -1 and the slice bounds become -2. See `SearchOptions.CommitteeOptionWithoutBracket`.
- The stage cell needs no `<br>`. The introduced and cosponsor cells do, and so does a non-empty fourth cell in a row of exactly four cells. See `Bills.ParseBillSucceedsIff`.

=== FILE: bill_types.dfy ===
/**
 * The `BillType` enum of the congressional search script: a fixed table of
 * (member name, value token, label), looked up case-insensitively by value
 * token (`from_value`) and by upper-cased member name (`from_name`,
 * `is_valid`).
 */
module BillTypes {
  import opened Results
  import opened PyStr

  /** The enum's members. */
  datatype BillType = ALL | HB | SB | HRES | SRES | HJRES | SJRES | HCRES | SCRES

  /** Iteration order of `for btype in cls`: declaration order. */
  const Members: seq<BillType> := [ALL, HB, SB, HRES, SRES, HJRES, SJRES, HCRES, SCRES]

  /** `btype.name`. */
  function Name(t: BillType): string {
    match t
    case ALL => "ALL"
    case HB => "HB"
    case SB => "SB"
    case HRES => "HRES"
    case SRES => "SRES"
    case HJRES => "HJRES"
    case SJRES => "SJRES"
    case HCRES => "HCRES"
    case SCRES => "SCRES"
  }

  /** `btype.value['value']`: the token that prefixes a bill number on the results page. */
  function Token(t: BillType): string {
    match t
    case ALL => "All"
    case HB => "H.R."
    case SB => "S."
    case HRES => "H.Res."
    case SRES => "S.Res."
    case HJRES => "H.J.Res."
    case SJRES => "S.J.Res."
    case HCRES => "H.Con.Res."
    case SCRES => "S.Con.Res."
  }

  /** `btype.value['name']`: the human-readable label, spelt as in the table. */
  function Label(t: BillType): string {
    match t
    case ALL => "All Bills"
    case HB => "House Bill"
    case SB => "Senate Bill"
    case HRES => "House Resolution"
    case SRES => "Senate Resolution"
    case HJRES => "Joint Resolution Originating in House of Respresentatives"
    case SJRES => "Join Resolution Originating in Senate"
    case HCRES => "Concurrent Resolution Originating in House of Respresentatives"
    case SCRES => "Concurrent Resolution Originating in Senate"
  }

  /** Where a member sits in declaration order. */
  function Position(t: BillType): (i: nat)
    ensures i < |Members| && Members[i] == t
  {
    match t
    case ALL => 0
    case HB => 1
    case SB => 2
    case HRES => 3
    case SRES => 4
    case HJRES => 5
    case SJRES => 6
    case HCRES => 7
    case SCRES => 8
  }

  /** `Members` lists every member exactly once. */
  lemma PositionOfMember(j: nat)
    requires j < |Members|
    ensures Position(Members[j]) == j
  {
  }

  /**
   * `btype.value['value'].lower()`, written out so that proofs about `from_value` need not
   * unfold `Lower` over the literal tokens; `LowerTokenIsLower` shows it agrees with `Lower`.
   */
  function LowerToken(t: BillType): string {
    match t
    case ALL => "all"
    case HB => "h.r."
    case SB => "s."
    case HRES => "h.res."
    case SRES => "s.res."
    case HJRES => "h.j.res."
    case SJRES => "s.j.res."
    case HCRES => "h.con.res."
    case SCRES => "s.con.res."
  }

  lemma LowerTokenIsLower(t: BillType)
    ensures LowerToken(t) == Lower(Token(t))
  {
  }

  /** `value.lower() == btype.value['value'].lower()`. */
  predicate ValueMatches(v: string, t: BillType) {
    Lower(v) == LowerToken(t)
  }

  /** `name.upper() == btype.name`. */
  predicate NameMatches(n: string, t: BillType) {
    Upper(n) == Name(t)
  }

  /** The loop `for btype in cls: if p(btype): ...` from position `i`: the first index that matches, or -1. */
  function FirstMember(p: BillType -> bool, i: nat): (k: int)
    requires i <= |Members|
    ensures k == -1 || (i <= k < |Members| && p(Members[k]))
    ensures forall j :: i <= j < |Members| && (k == -1 || j < k) ==> !p(Members[j])
    decreases |Members| - i
  {
    if i == |Members| then -1
    else if p(Members[i]) then i
    else FirstMember(p, i + 1)
  }

  /** What the loop from the first member finds, for any test. */
  lemma FirstMemberFacts(p: BillType -> bool)
    ensures var k := FirstMember(p, 0);
      && (k == -1 <==> forall t :: !p(t))
      && (k != -1 ==> p(Members[k]) && Position(Members[k]) == k)
      && (k != -1 ==> forall j :: 0 <= j < k ==> !p(Members[j]))
  {
    var k := FirstMember(p, 0);
    if k == -1 {
      forall t ensures !p(t) {
        assert Members[Position(t)] == t;
      }
    } else {
      PositionOfMember(k);
    }
  }

  /** `BillType.from_value(v)`. */
  function FromValue(v: string): (r: Result<BillType>)
    ensures r.Success? <==> exists t :: ValueMatches(v, t)
    ensures r.Success? ==> ValueMatches(v, r.value)
    ensures r.Success? ==> forall j :: 0 <= j < Position(r.value) ==> !ValueMatches(v, Members[j])
    ensures r.Failure? ==> r.error == UnknownValue(v)
  {
    var p := t => ValueMatches(v, t);
    var k := FirstMember(p, 0);
    FirstMemberFacts(p);
    if k < 0 then
      assert forall t :: !ValueMatches(v, t) by {
        forall t ensures !ValueMatches(v, t) { assert !p(t); }
      }
      Failure(UnknownValue(v))
    else
      var t := Members[k];
      assert p(t);
      Success(t)
  }

  /** `BillType.from_name(n)`: answers the argument itself, not a member. */
  function FromName(n: string): (r: Result<string>)
    ensures r.Success? <==> exists t :: NameMatches(n, t)
    ensures r.Success? ==> r.value == n
    ensures r.Failure? ==> r.error == InvalidName(n)
  {
    var p := t => NameMatches(n, t);
    var k := FirstMember(p, 0);
    FirstMemberFacts(p);
    if k < 0 then
      assert forall t :: !NameMatches(n, t) by {
        forall t ensures !NameMatches(n, t) { assert !p(t); }
      }
      Failure(InvalidName(n))
    else
      assert p(Members[k]);
      Success(n)
  }

  /** `BillType.is_valid(n)`: whether `from_name` returns rather than raises. */
  function IsValid(n: string): (b: bool)
    ensures b <==> FromName(n).Success?
    ensures b <==> exists t :: NameMatches(n, t)
  {
    match FromName(n)
    case Success(_) => true
    case Failure(_) => false
  }

  /** No two tokens are equal ignoring case, so at most one member matches a value. */
  lemma TokensDistinct(t: BillType, u: BillType)
    requires Lower(Token(t)) == Lower(Token(u))
    ensures t == u
  {
    LowerTokenIsLower(t);
    LowerTokenIsLower(u);
    assert |LowerToken(t)| == |LowerToken(u)|;
    assert LowerToken(t)[0] == LowerToken(u)[0];
  }

  /** A value that matches a member ignoring case finds exactly that member. */
  lemma FromValueFindsMatch(v: string, t: BillType)
    requires ValueMatches(v, t)
    ensures FromValue(v) == Success(t)
  {
    var r := FromValue(v);
    LowerTokenIsLower(t);
    LowerTokenIsLower(r.value);
    TokensDistinct(r.value, t);
  }

  lemma LowerIdempotent(s: string)
    ensures Lower(Lower(s)) == Lower(s)
  {
  }

  /** Every member's token, in any letter case, looks up that member. */
  lemma FromValueRoundTrip(t: BillType)
    ensures FromValue(Token(t)) == Success(t)
    ensures FromValue(Lower(Token(t))) == Success(t)
  {
    LowerIdempotent(Token(t));
    LowerTokenIsLower(t);
    FromValueFindsMatch(Token(t), t);
    FromValueFindsMatch(Lower(Token(t)), t);
  }

  /** The lookup by value depends only on the lower-cased value. */
  lemma FromValueIgnoresCase(v: string, w: string)
    requires Lower(v) == Lower(w)
    ensures FromValue(v).Success? <==> FromValue(w).Success?
    ensures FromValue(v).Success? ==> FromValue(v) == FromValue(w)
  {
    if FromValue(v).Success? {
      FromValueFindsMatch(w, FromValue(v).value);
    }
  }

  lemma UpperOfName(t: BillType)
    ensures Upper(Name(t)) == Name(t)
  {
  }

  /** Every member name is accepted by `from_name`, which hands the name back, and is valid. */
  lemma FromNameRoundTrip(t: BillType)
    ensures FromName(Name(t)) == Success(Name(t))
    ensures IsValid(Name(t))
  {
    UpperOfName(t);
    assert NameMatches(Name(t), t);
  }

  /** The labels are not names: `from_name` rejects the label of every member, each label being longer than any name. */
  lemma LabelIsNotAName(t: BillType)
    ensures !IsValid(Label(t))
  {
    LabelsOutgrowNames(t);
    forall u: BillType
      ensures !NameMatches(Label(t), u)
    {
      LabelsOutgrowNames(u);
    }
  }

  /** No name is longer than five characters; no label is shorter than nine. */
  lemma LabelsOutgrowNames(t: BillType)
    ensures |Name(t)| <= 5 < 9 <= |Label(t)|
  {
  }
}

=== FILE: bills.dfy ===
/**
 * One result row of the congressional bills browser, as the `Bill`
 * constructor reads it: the anchor text `"<TYPE> <ID>: <title>"` and its
 * link, then the row's table cells, each an `innerHTML` whose lines are
 * separated by `<br>` (introduced date; stage and its date; cosponsor count
 * and party breakdown; optionally the progression).
 */
module Bills {
  import opened Results
  import opened PyStr
  import opened Text
  import opened BillTypes

  /** The line separator inside a cell. */
  const LineBreak: string := "<br>"

  /** What the anchor text yields: the bill's title, number and type. */
  datatype TitleLine = TitleLine(title: string, billId: string, billType: BillType)

  /** The `progression` attribute: assigned (possibly `None`), or never set because `__init__` returned early. */
  datatype Slot = Unset | Assigned(value: Option<string>)

  datatype Bill = Bill(
    url: string,
    title: string,
    billId: string,
    billType: BillType,
    introduced: string,
    currentStage: string,
    currentStageDate: Option<string>,
    cosponsorCount: string,
    cosponsorConstitution: seq<string>,
    progression: Slot)

  /** The second line of a cell: the text between its first and second `<br>`. */
  function SecondLine(cell: string): string {
    Head(Tail(cell, LineBreak), LineBreak)
  }

  /** The anchor text before its first colon, stripped: `"<TYPE> <ID>"`. */
  function IdText(titleContent: string): string {
    Strip(Head(titleContent, ":"))
  }

  /** The type token in front of the bill number. */
  function TypeToken(titleContent: string): string {
    Head(IdText(titleContent), " ")
  }

  /** The title parsing of `Bill.__init__` (`split(':')`, `strip`, `split(' ')`, `from_value`). */
  function ParseTitle(titleContent: string): (r: Result<TitleLine>)
    ensures r.Success? <==>
      && Occurs(titleContent, ":")
      && Occurs(IdText(titleContent), " ")
      && FromValue(TypeToken(titleContent)).Success?
    ensures r.Success? ==>
      && r.value.title == Strip(Head(Tail(titleContent, ":"), ":"))
      && r.value.billId == Head(Tail(IdText(titleContent), " "), " ")
      && FromValue(TypeToken(titleContent)) == Success(r.value.billType)
    ensures r.Success? ==> ':' !in r.value.title && ' ' !in r.value.billId
    ensures r.Failure? ==> r.error == IndexError || r.error == UnknownValue(TypeToken(titleContent))
    ensures Occurs(titleContent, ":") && Occurs(IdText(titleContent), " ") && r.Failure? ==>
      r.error == UnknownValue(TypeToken(titleContent))
    ensures !(Occurs(titleContent, ":") && Occurs(IdText(titleContent), " ")) ==> r == Failure(IndexError)
  {
    var splitTitle := Split(titleContent, ":");
    var titlePiece :- Index(splitTitle, 1);
    var billIdSplit := Split(Strip(splitTitle[0]), " ");
    assert Strip(splitTitle[0]) == IdText(titleContent);
    var billId :- Index(billIdSplit, 1);
    assert billIdSplit[0] == TypeToken(titleContent);
    var billType :- FromValue(billIdSplit[0]);
    OccursChar(titlePiece, ':');
    OccursChar(billId, ' ');
    Success(TitleLine(Strip(titlePiece), billId, billType))
  }

  /** The progression cell: only a row of exactly four cells has one; an empty one leaves the attribute unset. */
  function ParseProgression(cells: seq<string>): (r: Result<Slot>)
    ensures r.Failure? <==> |cells| == 4 && cells[3] != "" && !Occurs(cells[3], LineBreak)
    ensures r.Failure? ==> r.error == IndexError
    ensures r == Success(Unset) <==> |cells| == 4 && cells[3] == ""
    ensures r.Success? && r.value.Assigned? ==>
      (r.value.value.Some? <==> |cells| == 4) &&
      (r.value.value.Some? ==> r.value.value.value == SecondLine(cells[3]))
  {
    if |cells| != 4 then Success(Assigned(None))
    else if cells[3] == "" then Success(Unset)
    else
      var progression :- Index(Split(cells[3], LineBreak), 1);
      Success(Assigned(Some(progression)))
  }

  /** What the cosponsor line yields: the count and the party breakdown. */
  datatype Cosponsors = Cosponsors(count: string, parties: seq<string>)

  /**
   * The cosponsor line of `Bill.__init__`: stripped and cut at spaces; the count is the first
   * piece, and the second piece, without brackets and cut at commas, gives the parties.
   */
  function ParseCosponsors(line: string): (c: Cosponsors)
    ensures var text := Strip(line);
      && c.count == Head(text, " ")
      && (c.parties == [] <==> !Occurs(text, " "))
      && (Occurs(text, " ") ==>
            Join(c.parties, ",") == Without(Without(Head(Tail(text, " "), " "), '('), ')'))
    ensures forall k :: 0 <= k < |c.parties| ==>
      var party := c.parties[k];
      '(' !in party && ')' !in party && ',' !in party
  {
    var cosponsorSplit := Split(Strip(line), " ");
    var constitution := if |cosponsorSplit| > 1 then Parties(cosponsorSplit[1]) else [];
    Cosponsors(cosponsorSplit[0], constitution)
  }

  /** The second word of a cosponsor line, brackets removed and cut at commas. */
  function Parties(word: string): (parties: seq<string>)
    ensures Join(parties, ",") == RemoveParens(word)
    ensures forall k :: 0 <= k < |parties| ==>
      var party := parties[k];
      '(' !in party && ')' !in party && ',' !in party
  {
    var cleaned := RemoveParens(word);
    SplitJoin(cleaned, ",");
    PlainCommaPieces(cleaned);
    Split(cleaned, ",")
  }

  /** Cutting bracket-free text at commas leaves pieces with no bracket and no comma. */
  lemma PlainCommaPieces(cleaned: string)
    requires '(' !in cleaned && ')' !in cleaned
    ensures forall k :: 0 <= k < |Split(cleaned, ",")| ==>
      var party := Split(cleaned, ",")[k];
      '(' !in party && ')' !in party && ',' !in party
  {
    var pieces := Split(cleaned, ",");
    forall k | 0 <= k < |pieces|
      ensures '(' !in pieces[k] && ')' !in pieces[k] && ',' !in pieces[k]
    {
      OccursChar(pieces[k], ',');
      if '(' in pieces[k] {
        SplitKeepsChars(cleaned, ",", k, '(');
      }
      if ')' in pieces[k] {
        SplitKeepsChars(cleaned, ",", k, ')');
      }
    }
  }

  /** A stripped line of two space-free pieces yields the first as the count. */
  lemma CosponsorsOfTwoPieces(line: string, n: string, rest: string)
    requires Split(Strip(line), " ") == [n, rest]
    ensures ParseCosponsors(line) == Cosponsors(n, Split(RemoveParens(rest), ","))
  {
  }

  /** Two unpadded space-free words joined by one space strip to themselves and split back apart. */
  lemma SpacedPair(n: string, rest: string)
    requires |n| > 0 && !IsSpace(n[0]) && ' ' !in n
    requires |rest| > 0 && !IsSpace(rest[|rest| - 1]) && ' ' !in rest
    ensures Split(Strip(n + " " + rest), " ") == [n, rest]
  {
    var line := n + " " + rest;
    assert line[0] == n[0] && line[|line| - 1] == rest[|rest| - 1];
    StripUnpadded(line);
    SplitOnce(n, " ", rest, 0);
  }

  /** `"<n> (<a>,<b>)"`, as the results page prints a cosponsor line, yields the count and both parties. */
  lemma ParseTypicalCosponsors(n: string, a: string, b: string)
    requires |n| > 0 && !IsSpace(n[0]) && ' ' !in n
    requires ' ' !in a && '(' !in a && ')' !in a && ',' !in a
    requires ' ' !in b && '(' !in b && ')' !in b && ',' !in b
    ensures ParseCosponsors(n + " (" + a + "," + b + ")") == Cosponsors(n, [a, b])
  {
    var pair := a + "," + b;
    var rest := "(" + pair + ")";
    assert n + " (" + a + "," + b + ")" == n + " " + rest;
    assert ' ' !in rest && '(' !in pair && ')' !in pair by {
      assert forall k :: 0 <= k < |rest| ==> rest[k] != ' ';
    }
    SpacedPair(n, rest);
    CosponsorsOfTwoPieces(n + " " + rest, n, rest);
    RemoveEnclosingParens(pair);
    SplitOnce(a, ",", b, 0);
  }

  /** What the table cells yield. */
  datatype TableFields = TableFields(
    introduced: string,
    currentStage: string,
    currentStageDate: Option<string>,
    cosponsorCount: string,
    cosponsorConstitution: seq<string>,
    progression: Slot)

  /** The cell parsing of `Bill.__init__`, in the constructor's order. */
  function ParseCells(cells: seq<string>): (r: Result<TableFields>)
    ensures r.Success? <==>
      && |cells| >= 3
      && Occurs(cells[0], LineBreak)
      && Occurs(cells[2], LineBreak)
      && (|cells| == 4 && cells[3] != "" ==> Occurs(cells[3], LineBreak))
    ensures r.Failure? ==> r.error == IndexError
    ensures r.Success? ==>
      var f := r.value;
      && f.introduced == SecondLine(cells[0])
      && f.currentStage == Head(cells[1], LineBreak)
      && (f.currentStageDate.None? <==> !Occurs(cells[1], LineBreak))
      && (f.currentStageDate.Some? ==> f.currentStageDate.value == SecondLine(cells[1]))
    ensures r.Success? ==>
      var f := r.value;
      ParseCosponsors(SecondLine(cells[2])) == Cosponsors(f.cosponsorCount, f.cosponsorConstitution)
    ensures r.Success? ==> Success(r.value.progression) == ParseProgression(cells)
  {
    var cell0 :- Index(cells, 0);
    var introduced :- Index(Split(cell0, LineBreak), 1);
    var cell1 :- Index(cells, 1);
    var stageContent := Split(cell1, LineBreak);
    var cell2 :- Index(cells, 2);
    var cosponsorLine :- Index(Split(cell2, LineBreak), 1);
    var cosponsors := ParseCosponsors(cosponsorLine);
    var progression :- ParseProgression(cells);
    Success(TableFields(
      introduced,
      stageContent[0],
      if |stageContent| > 1 then Some(stageContent[1]) else None,
      cosponsors.count,
      cosponsors.parties,
      progression))
  }

  /** `Bill.__init__` given the anchor's `innerHTML` and `href` and the `innerHTML` of each table cell. */
  function ParseBill(titleContent: string, url: string, cells: seq<string>): (r: Result<Bill>)
    ensures r.Success? <==> ParseTitle(titleContent).Success? && ParseCells(cells).Success?
    ensures ParseTitle(titleContent).Failure? ==> r == Failure(ParseTitle(titleContent).error)
    ensures ParseTitle(titleContent).Success? && ParseCells(cells).Failure? ==> r == Failure(IndexError)
    ensures r.Failure? ==> r.error == IndexError || r.error == UnknownValue(TypeToken(titleContent))
    ensures r.Success? ==>
      var b, line, f := r.value, ParseTitle(titleContent).value, ParseCells(cells).value;
      && b.url == url
      && b.title == line.title && b.billId == line.billId && b.billType == line.billType
      && b.introduced == f.introduced && b.currentStage == f.currentStage
      && b.currentStageDate == f.currentStageDate
      && b.cosponsorCount == f.cosponsorCount
      && b.cosponsorConstitution == f.cosponsorConstitution
      && b.progression == f.progression
  {
    var line :- ParseTitle(titleContent);
    var f :- ParseCells(cells);
    Success(Bill(
      url, line.title, line.billId, line.billType,
      f.introduced, f.currentStage, f.currentStageDate,
      f.cosponsorCount, f.cosponsorConstitution, f.progression))
  }

  /** `get_progression()`: an unset attribute reads as `None`. */
  function GetProgression(b: Bill): (p: Option<string>)
    ensures p.Some? <==> b.progression.Assigned? && b.progression.value.Some?
    ensures b.progression.Assigned? ==> p == b.progression.value
  {
    match b.progression
    case Unset => None
    case Assigned(progression) => progression
  }

  /** The shape a row must have for `Bill.__init__` to return rather than raise. */
  ghost predicate RowParses(titleContent: string, cells: seq<string>) {
    && Occurs(titleContent, ":")
    && Occurs(IdText(titleContent), " ")
    && (exists t :: ValueMatches(TypeToken(titleContent), t))
    && |cells| >= 3
    && Occurs(cells[0], LineBreak)
    && Occurs(cells[2], LineBreak)
    && (|cells| == 4 && cells[3] != "" ==> Occurs(cells[3], LineBreak))
  }

  /** A row is read exactly when it has that shape; the stage cell needs no `<br>`. */
  lemma ParseBillSucceedsIff(titleContent: string, url: string, cells: seq<string>)
    ensures ParseBill(titleContent, url, cells).Success? <==> RowParses(titleContent, cells)
  {
  }

  /** A colon-separated title whose type token is not in the table makes the constructor raise, whatever the cells. */
  lemma UnknownTypeRejected(titleContent: string, url: string, cells: seq<string>)
    ensures Occurs(titleContent, ":") && Occurs(IdText(titleContent), " ")
         && (forall t :: !ValueMatches(TypeToken(titleContent), t))
      ==> ParseBill(titleContent, url, cells) == Failure(UnknownValue(TypeToken(titleContent)))
  {
  }

  /** A bill whose progression came from the cells reports it exactly for four cells with a non-empty last one. */
  lemma ProgressionSlot(b: Bill, cells: seq<string>)
    requires Success(b.progression) == ParseProgression(cells)
    ensures var p := GetProgression(b);
      && (p.Some? <==> |cells| == 4 && cells[3] != "")
      && (p.Some? ==> p.value == SecondLine(cells[3]))
  {
  }

  /** `get_progression()` of a parsed row answers exactly for four cells with a non-empty last one. */
  lemma ProgressionPresence(titleContent: string, url: string, cells: seq<string>)
    ensures var r := ParseBill(titleContent, url, cells);
      r.Success? ==>
        var p := GetProgression(r.value);
        && (p.Some? <==> |cells| == 4 && cells[3] != "")
        && (p.Some? ==> p.value == SecondLine(cells[3]))
  {
    var r := ParseBill(titleContent, url, cells);
    if r.Success? {
      ProgressionSlot(r.value, cells);
    }
  }

  /** The token of every member is non-empty, carries no colon or space and does not start with whitespace. */
  lemma TokenShape(t: BillType)
    ensures |Token(t)| > 0 && !IsSpace(Token(t)[0])
    ensures ':' !in Token(t) && ' ' !in Token(t)
  {
  }

  /** The pieces of a typical anchor text around its colon, each already stripped or stripping to the title. */
  lemma TitleSplits(idText: string, title: string)
    requires |idText| > 0 && !IsSpace(idText[0]) && !IsSpace(idText[|idText| - 1]) && ':' !in idText
    requires |title| > 0 && !IsSpace(title[0]) && !IsSpace(title[|title| - 1]) && ':' !in title
    ensures Split(idText + ":" + (" " + title), ":") == [idText, " " + title]
    ensures Strip(idText) == idText && Strip(" " + title) == title
  {
    SplitOnce(idText, ":", " " + title, 0);
    StripFrontSpace(title);
    StripUnpadded(idText);
  }

  /** How the text pieces of `"<tok> <id>: <title>"` come apart, whatever the token. */
  lemma TypicalTitleText(tok: string, id: string, title: string)
    requires |tok| > 0 && !IsSpace(tok[0]) && ':' !in tok && ' ' !in tok
    requires |id| > 0 && !IsSpace(id[|id| - 1]) && ' ' !in id && ':' !in id
    requires |title| > 0 && !IsSpace(title[0]) && !IsSpace(title[|title| - 1]) && ':' !in title
    ensures var s := tok + " " + id + ": " + title;
      && Split(s, ":") == [tok + " " + id, " " + title]
      && IdText(s) == tok + " " + id
      && Split(IdText(s), " ") == [tok, id]
      && TypeToken(s) == tok
      && Strip(" " + title) == title
  {
    var idText := tok + " " + id;
    var s := tok + " " + id + ": " + title;
    assert s == idText + ":" + (" " + title);
    assert idText[0] == tok[0] && idText[|idText| - 1] == id[|id| - 1];
    TitleSplits(idText, title);
    SplitOnce(tok, " ", id, 0);
  }

  /** A typical anchor text whose token looks up a member yields that member, the number and the title. */
  lemma TypicalTitleParses(tok: string, id: string, title: string, t: BillType)
    requires |tok| > 0 && !IsSpace(tok[0]) && ':' !in tok && ' ' !in tok && FromValue(tok) == Success(t)
    requires |id| > 0 && !IsSpace(id[|id| - 1]) && ' ' !in id && ':' !in id
    requires |title| > 0 && !IsSpace(title[0]) && !IsSpace(title[|title| - 1]) && ':' !in title
    ensures ParseTitle(tok + " " + id + ": " + title) == Success(TitleLine(title, id, t))
  {
    var s := tok + " " + id + ": " + title;
    TypicalTitleText(tok, id, title);
    var parts := Split(s, ":");
    assert Index(parts, 1) == Success(" " + title);
    var idParts := Split(Strip(parts[0]), " ");
    assert idParts == [tok, id];
    assert Index(idParts, 1) == Success(id);
  }

  /**
   * An anchor text laid out as the results page prints it, `"<token> <id>: <title>"`, yields the
   * member of that token, the number and the title.
   */
  lemma ParseTypicalTitle(t: BillType, id: string, title: string)
    requires |id| > 0 && !IsSpace(id[|id| - 1]) && ' ' !in id && ':' !in id
    requires |title| > 0 && !IsSpace(title[0]) && !IsSpace(title[|title| - 1]) && ':' !in title
    ensures ParseTitle(Token(t) + " " + id + ": " + title) == Success(TitleLine(title, id, t))
  {
    TokenShape(t);
    FromValueRoundTrip(t);
    TypicalTitleParses(Token(t), id, title, t);
  }
}

=== FILE: pystr.dfy ===
/**
 * The Python 3 `str` operations the scraper's parsing is composed of, with
 * Python's semantics: `find` (-1 when absent), `split` with an explicit
 * separator (cuts at every non-overlapping occurrence, keeps empty pieces),
 * `partition` (head and tail around the first occurrence), slicing with
 * negative and out-of-range indices, `strip()`, `replace` and the case
 * mappings `lower()` / `upper()`, of which only the mappings that produce an
 * ASCII letter are modelled; every other character is returned unchanged.
 */
module PyStr {

  /** `sub` occurs in `s` starting at index `i`. */
  ghost predicate OccursAt(s: string, sub: string, i: int) {
    0 <= i && i + |sub| <= |s| && s[i..i + |sub|] == sub
  }

  /** Python's `sub in s`. */
  ghost predicate Occurs(s: string, sub: string) {
    exists i :: OccursAt(s, sub, i)
  }

  /** A one-character substring occurs exactly when the character does. */
  lemma OccursChar(s: string, c: char)
    ensures Occurs(s, [c]) <==> c in s
  {
    if c in s {
      var i :| 0 <= i < |s| && s[i] == c;
      assert OccursAt(s, [c], i);
    }
    if Occurs(s, [c]) {
      var i :| OccursAt(s, [c], i);
      assert s[i] == s[i..i + 1][0] == c;
    }
  }

  /** An occurrence inside a prefix of `s` is an occurrence in `s` that ends within the prefix. */
  lemma OccursInPrefix(s: string, k: nat, sub: string, j: int)
    requires k <= |s|
    requires OccursAt(s[..k], sub, j)
    ensures OccursAt(s, sub, j) && j + |sub| <= k
  {
    assert s[..k][j..j + |sub|] == s[j..j + |sub|];
  }

  /** Scan for the first occurrence of `sub` at or after index `i`. */
  function FindFrom(s: string, sub: string, i: nat): (r: int)
    ensures r == -1 || (i <= r && OccursAt(s, sub, r))
    ensures forall j :: i <= j && (r == -1 || j < r) ==> !OccursAt(s, sub, j)
    decreases |s| - i
  {
    if i + |sub| > |s| then -1
    else if s[i..i + |sub|] == sub then i
    else FindFrom(s, sub, i + 1)
  }

  /** Python's `s.find(sub)`: the lowest index of an occurrence, or -1. */
  function Find(s: string, sub: string): (r: int)
    ensures r == -1 <==> !Occurs(s, sub)
    ensures r != -1 ==> OccursAt(s, sub, r)
    ensures forall j :: 0 <= j < r ==> !OccursAt(s, sub, j)
  {
    FindFrom(s, sub, 0)
  }

  /** Nothing in `s[..i]` matches `sub` when no occurrence in `s` starts before `i`. */
  lemma NoOccurrenceBefore(s: string, sub: string, i: nat)
    requires |sub| > 0 && i <= |s|
    requires forall j :: 0 <= j < i ==> !OccursAt(s, sub, j)
    ensures !Occurs(s[..i], sub)
  {
    if Occurs(s[..i], sub) {
      var j :| OccursAt(s[..i], sub, j);
      OccursInPrefix(s, i, sub, j);
    }
  }

  /** `s.partition(sep)[0]`: the text before the first `sep`, or all of `s`. */
  function Head(s: string, sep: string): (h: string)
    requires |sep| > 0
    ensures !Occurs(s, sep) ==> h == s
    ensures Occurs(s, sep) ==> h + sep + Tail(s, sep) == s
    ensures !Occurs(h, sep)
  {
    var i := Find(s, sep);
    if i < 0 then s
    else
      NoOccurrenceBefore(s, sep, i);
      assert s == s[..i] + sep + s[i + |sep|..];
      s[..i]
  }

  /** `s.partition(sep)[2]`: the text after the first `sep`, or "" when there is none. */
  function Tail(s: string, sep: string): (t: string)
    requires |sep| > 0
    ensures !Occurs(s, sep) ==> t == ""
    ensures Occurs(s, sep) ==> |t| + |sep| <= |s| && t == s[|s| - |t|..]
  {
    var i := Find(s, sep);
    if i < 0 then "" else s[i + |sep|..]
  }

  /** Python's `s.split(sep)` for a non-empty `sep`. */
  function Split(s: string, sep: string): (parts: seq<string>)
    requires |sep| > 0
    ensures |parts| >= 1
    ensures parts[0] == Head(s, sep)
    ensures |parts| >= 2 <==> Occurs(s, sep)
    ensures Occurs(s, sep) ==> parts[1] == Head(Tail(s, sep), sep)
    ensures forall k :: 0 <= k < |parts| ==> !Occurs(parts[k], sep)
    decreases |s|
  {
    if Find(s, sep) < 0 then [s]
    else [Head(s, sep)] + Split(Tail(s, sep), sep)
  }

  /** Every character of a piece comes from the split text. */
  lemma {:induction false} SplitKeepsChars(s: string, sep: string, k: nat, c: char)
    requires |sep| > 0 && k < |Split(s, sep)| && c in Split(s, sep)[k]
    ensures c in s
    decreases |s|
  {
    if Occurs(s, sep) {
      var h, t := Head(s, sep), Tail(s, sep);
      assert s == h + sep + t;
      if k > 0 {
        assert Split(s, sep) == [h] + Split(t, sep);
        SplitKeepsChars(t, sep, k - 1, c);
      }
    }
  }

  /**
   * `a + sep + b` splits into `[a, b]` when the separator cannot start inside `a` (its first
   * character is not in `a`) and cannot occur inside `b` (one of its characters is not in `b`).
   */
  lemma SplitOnce(a: string, sep: string, b: string, i: nat)
    requires |sep| > 0 && sep[0] !in a
    requires i < |sep| && sep[i] !in b
    ensures Split(a + sep + b, sep) == [a, b]
  {
    var s := a + sep + b;
    assert OccursAt(s, sep, |a|);
    FindAt(s, sep, |a|);
    assert Head(s, sep) == a && Tail(s, sep) == b;
    MissingChar(b, sep, i);
  }

  /** Python's `sep.join(parts)`. */
  function Join(parts: seq<string>, sep: string): string
  {
    if |parts| == 0 then ""
    else if |parts| == 1 then parts[0]
    else parts[0] + sep + Join(parts[1..], sep)
  }

  /** Joining the pieces of a split with the same separator gives back the text. */
  lemma {:induction false} SplitJoin(s: string, sep: string)
    requires |sep| > 0
    ensures Join(Split(s, sep), sep) == s
    decreases |s|
  {
    if Occurs(s, sep) {
      var rest := Split(Tail(s, sep), sep);
      SplitJoin(Tail(s, sep), sep);
      assert Split(s, sep) == [Head(s, sep)] + rest;
      assert ([Head(s, sep)] + rest)[1..] == rest;
    }
  }

  /** `find` answers `k` when `sub` occurs at `k` and its first character appears nowhere earlier. */
  lemma FindAt(s: string, sub: string, k: nat)
    requires |sub| > 0 && OccursAt(s, sub, k)
    requires forall j :: 0 <= j < k ==> s[j] != sub[0]
    ensures Find(s, sub) == k
  {
    var r := Find(s, sub);
    assert OccursAt(s, sub, r);
    assert s[r..r + |sub|][0] == sub[0];
  }

  /** A pattern with a character that `s` lacks does not occur in `s`. */
  lemma MissingChar(s: string, sub: string, i: nat)
    requires i < |sub| && sub[i] !in s
    ensures !Occurs(s, sub)
  {
  }

  /** Python's normalisation of one slice bound: negative counts from the end, then clamp. */
  function ClampIndex(k: int, n: nat): (r: nat)
    ensures r <= n
    ensures 0 <= k <= n ==> r == k
    ensures k < 0 && 0 <= k + n ==> r == k + n
    ensures k + n < 0 ==> r == 0
    ensures n < k ==> r == n
  {
    if k < 0 then (if k + n < 0 then 0 else k + n)
    else if k > n then n
    else k
  }

  /** Python's `s[start:stop]`. */
  function Slice(s: string, start: int, stop: int): (r: string)
    ensures |r| <= |s|
    ensures 0 <= start <= stop <= |s| ==> r == s[start..stop]
    ensures ClampIndex(stop, |s|) <= ClampIndex(start, |s|) ==> r == ""
    ensures ClampIndex(start, |s|) < ClampIndex(stop, |s|) ==>
      r == s[ClampIndex(start, |s|)..ClampIndex(stop, |s|)]
  {
    var a := ClampIndex(start, |s|);
    var b := ClampIndex(stop, |s|);
    if a < b then s[a..b] else ""
  }

  /** Python's `s[start:]`. */
  function SliceFrom(s: string, start: int): string
  {
    Slice(s, start, |s|)
  }

  /** `s[:k] + s[k:] == s` for every integer `k`, negative or past the end. */
  lemma SliceConcat(s: string, k: int)
    ensures Slice(s, 0, k) + SliceFrom(s, k) == s
  {
    var c := ClampIndex(k, |s|);
    assert s == s[..c] + s[c..];
  }

  /** Python's `str.isspace()` for one character: the characters `strip()` removes. */
  predicate IsSpace(c: char) {
    || ('\t' <= c <= '\r')
    || ('\U{1C}' <= c <= '\U{1F}')
    || c == ' '
    || c == '\U{85}'
    || c == '\U{A0}'
    || c == '\U{1680}'
    || ('\U{2000}' <= c <= '\U{200A}')
    || c == '\U{2028}'
    || c == '\U{2029}'
    || c == '\U{202F}'
    || c == '\U{205F}'
    || c == '\U{3000}'
  }

  /** Python's `s.lstrip()`. */
  function LStrip(s: string): (r: string)
    ensures |r| <= |s| && r == s[|s| - |r|..]
    ensures forall k :: 0 <= k < |s| - |r| ==> IsSpace(s[k])
    ensures r == [] || !IsSpace(r[0])
    decreases |s|
  {
    if |s| > 0 && IsSpace(s[0]) then LStrip(s[1..]) else s
  }

  /** Python's `s.rstrip()`. */
  function RStrip(s: string): (r: string)
    ensures |r| <= |s| && r == s[..|r|]
    ensures forall k :: |r| <= k < |s| ==> IsSpace(s[k])
    ensures r == [] || !IsSpace(r[|r| - 1])
    decreases |s|
  {
    if |s| > 0 && IsSpace(s[|s| - 1]) then RStrip(s[..|s| - 1]) else s
  }

  /** Python's `s.strip()`. */
  function Strip(s: string): (r: string)
    ensures |r| <= |s|
    ensures r == [] || (!IsSpace(r[0]) && !IsSpace(r[|r| - 1]))
    ensures forall c :: c in r ==> c in s
    ensures r == [] <==> forall k :: 0 <= k < |s| ==> IsSpace(s[k])
  {
    var l := LStrip(s);
    var r := RStrip(l);
    assert forall c :: c in r ==> c in l;
    r
  }

  /** Python's `s.replace(pattern, replacement)`, every non-overlapping occurrence from the left. */
  function Replace(s: string, pattern: string, replacement: string): (r: string)
    ensures |pattern| > 0 && !Occurs(s, pattern) ==> r == s
    decreases |s|
  {
    if |pattern| == 0 then
      // Python inserts the replacement before every character and at the end.
      if |s| == 0 then replacement
      else replacement + [s[0]] + Replace(s[1..], pattern, replacement)
    else if Find(s, pattern) < 0 then s
    else Head(s, pattern) + replacement + Replace(Tail(s, pattern), pattern, replacement)
  }

  /** Replacing every occurrence is joining the split pieces with the replacement. */
  lemma {:induction false} ReplaceIsSplitJoin(s: string, pattern: string, replacement: string)
    requires |pattern| > 0
    ensures Replace(s, pattern, replacement) == Join(Split(s, pattern), replacement)
    decreases |s|
  {
    if Occurs(s, pattern) {
      var rest := Split(Tail(s, pattern), pattern);
      ReplaceIsSplitJoin(Tail(s, pattern), pattern, replacement);
      assert Split(s, pattern) == [Head(s, pattern)] + rest;
      assert ([Head(s, pattern)] + rest)[1..] == rest;
    }
  }

  /** One step of deleting a pattern: the text before its first occurrence is kept. */
  lemma DeleteUnfold(s: string, pattern: string)
    requires |pattern| > 0 && Occurs(s, pattern)
    ensures Replace(s, pattern, "") == Head(s, pattern) + Replace(Tail(s, pattern), pattern, "")
  {
    assert Find(s, pattern) >= 0;
  }

  /** Deleting a pattern never introduces a character. */
  lemma {:induction false} DeleteKeepsChars(s: string, pattern: string, c: char)
    requires |pattern| > 0
    ensures c in Replace(s, pattern, "") ==> c in s
    decreases |s|
  {
    if c in Replace(s, pattern, "") && Occurs(s, pattern) {
      var h, t := Head(s, pattern), Tail(s, pattern);
      DeleteUnfold(s, pattern);
      if c !in h {
        DeleteKeepsChars(t, pattern, c);
      }
      assert s == h + pattern + t;
    }
  }

  /** `lstrip()` drops leading whitespace up to the first other character. */
  lemma {:induction false} LStripSpaces(a: string, t: string)
    requires forall k :: 0 <= k < |a| ==> IsSpace(a[k])
    requires t == [] || !IsSpace(t[0])
    ensures LStrip(a + t) == t
    decreases |a|
  {
    if |a| == 0 {
      assert a + t == t;
    } else {
      assert (a + t)[0] == a[0];
      assert (a + t)[1..] == a[1..] + t;
      LStripSpaces(a[1..], t);
    }
  }

  /** `rstrip()` drops trailing whitespace back to the last other character. */
  lemma {:induction false} RStripSpaces(t: string, b: string)
    requires forall k :: 0 <= k < |b| ==> IsSpace(b[k])
    requires t == [] || !IsSpace(t[|t| - 1])
    ensures RStrip(t + b) == t
    decreases |b|
  {
    if |b| == 0 {
      assert t + b == t;
    } else {
      var n := |t + b|;
      assert (t + b)[n - 1] == b[|b| - 1];
      assert (t + b)[..n - 1] == t + b[..|b| - 1];
      RStripSpaces(t, b[..|b| - 1]);
    }
  }

  /** `strip()` of text padded by whitespace on both sides gives back the text. */
  lemma StripSurrounded(a: string, m: string, b: string)
    requires forall k :: 0 <= k < |a| ==> IsSpace(a[k])
    requires forall k :: 0 <= k < |b| ==> IsSpace(b[k])
    requires |m| > 0 && !IsSpace(m[0]) && !IsSpace(m[|m| - 1])
    ensures Strip(a + m + b) == m
  {
    var mb := m + b;
    assert a + m + b == a + mb;
    assert mb[0] == m[0];
    LStripSpaces(a, mb);
    RStripSpaces(m, b);
  }

  /** One leading space before an unpadded text is stripped. */
  lemma StripFrontSpace(m: string)
    requires |m| > 0 && !IsSpace(m[0]) && !IsSpace(m[|m| - 1])
    ensures Strip(" " + m) == m
  {
    LStripSpaces(" ", m);
    RStripSpaces(m, "");
    assert m + "" == m;
  }

  /** Text that neither starts nor ends with whitespace is its own `strip()`. */
  lemma StripUnpadded(m: string)
    requires |m| > 0 && !IsSpace(m[0]) && !IsSpace(m[|m| - 1])
    ensures Strip(m) == m
  {
    LStripSpaces("", m);
    assert "" + m == m;
    RStripSpaces(m, "");
    assert m + "" == m;
  }

  /** Reference definition: `s` with every `c` dropped. */
  function Without(s: string, c: char): (r: string)
    decreases |s|
  {
    if |s| == 0 then ""
    else (if s[0] == c then "" else [s[0]]) + Without(s[1..], c)
  }

  lemma {:induction false} WithoutConcat(a: string, b: string, c: char)
    ensures Without(a + b, c) == Without(a, c) + Without(b, c)
    decreases |a|
  {
    if |a| == 0 {
      assert a + b == b;
    } else {
      var first := if a[0] == c then "" else [a[0]];
      assert (a + b)[0] == a[0];
      assert (a + b)[1..] == a[1..] + b;
      assert Without(a + b, c) == first + Without(a[1..] + b, c);
      WithoutConcat(a[1..], b, c);
      assert Without(a, c) == first + Without(a[1..], c);
    }
  }

  lemma {:induction false} WithoutAbsent(s: string, c: char)
    requires c !in s
    ensures Without(s, c) == s
    decreases |s|
  {
    if |s| > 0 {
      WithoutAbsent(s[1..], c);
      assert s == [s[0]] + s[1..];
    }
  }

  lemma {:induction false} WithoutRemovesAll(s: string, c: char)
    ensures c !in Without(s, c)
    ensures forall d :: d in Without(s, c) ==> d in s
    decreases |s|
  {
    if |s| > 0 {
      WithoutRemovesAll(s[1..], c);
    }
  }

  /** Filtering across one occurrence of the character: the prefix before it is kept whole. */
  lemma WithoutAcross(h: string, t: string, c: char)
    requires c !in h
    ensures Without(h + [c] + t, c) == h + Without(t, c)
  {
    var ct := [c] + t;
    assert h + [c] + t == h + ct;
    WithoutAbsent(h, c);
    WithoutConcat(h, ct, c);
    assert ct[0] == c && ct[1..] == t;
    assert Without(ct, c) == Without(t, c);
  }

  /** Deleting a one-character pattern is filtering that character out. */
  lemma {:induction false} ReplaceCharIsWithout(s: string, c: char)
    ensures Replace(s, [c], "") == Without(s, c)
    decreases |s|
  {
    OccursChar(s, c);
    if !Occurs(s, [c]) {
      WithoutAbsent(s, c);
    } else {
      var h, t := Head(s, [c]), Tail(s, [c]);
      DeleteUnfold(s, [c]);
      OccursChar(h, c);
      ReplaceCharIsWithout(t, c);
      WithoutAcross(h, t, c);
    }
  }

  /** Python's `c.lower()` where it yields an ASCII letter; every other character is returned unchanged. */
  function LowerChar(c: char): char {
    if 'A' <= c <= 'Z' then (c as int + 32) as char
    else if c == '\U{212A}' then 'k'  // KELVIN SIGN
    else c
  }

  /** Python's `c.upper()` where it yields an ASCII letter; every other character is returned unchanged. */
  function UpperChar(c: char): char {
    if 'a' <= c <= 'z' then (c as int - 32) as char
    else if c == '\U{17F}' then 'S'  // LATIN SMALL LETTER LONG S
    else if c == '\U{131}' then 'I'  // LATIN SMALL LETTER DOTLESS I
    else c
  }

  /** Python's `s.lower()`, character by character through `LowerChar`. */
  function Lower(s: string): (r: string)
    ensures |r| == |s|
    ensures forall i :: 0 <= i < |s| ==> r[i] == LowerChar(s[i])
  {
    seq(|s|, i requires 0 <= i < |s| => LowerChar(s[i]))
  }

  /** Python's `s.upper()`, character by character through `UpperChar`. */
  function Upper(s: string): (r: string)
    ensures |r| == |s|
    ensures forall i :: 0 <= i < |s| ==> r[i] == UpperChar(s[i])
  {
    seq(|s|, i requires 0 <= i < |s| => UpperChar(s[i]))
  }
}

=== FILE: results.dfy ===
/**
 * The scraper's exceptions as values. Where the Python code would raise and
 * abandon a constructor or a getter, the model answers `Failure` with the
 * kind of exception; the caller sees every error path as data, and no
 * function needs a precondition to keep it off one.
 */
module Results {

  /** Python's `None` or a present value. */
  datatype Option<+T> = None | Some(value: T)

  /** The exceptions the modelled code raises. */
  datatype Error =
    | IndexError                   // a list index past the end (`parts[1]` on a one-piece split)
    | ValueIsAll                   // `Exception('Value is __ALL__')` from `check_value`
    | InvalidName(name: string)    // `Exception(f'{name} is not a valid enum')`
    | UnknownValue(value: string)  // `Exception(f'{value} is not a value associated with any of the enums')`

  datatype Result<+T> = Success(value: T) | Failure(error: Error) {

    predicate IsFailure() {
      Failure?
    }

    function PropagateFailure<U>(): Result<U>
      requires Failure?
    {
      Failure(error)
    }

    function Extract(): T
      requires Success?
    {
      value
    }
  }

  /** Python's `xs[i]` for a non-negative index: an `IndexError` past the end. */
  function Index<T>(xs: seq<T>, i: nat): (r: Result<T>)
    ensures r.Success? <==> i < |xs|
    ensures r.Success? ==> r.value == xs[i]
    ensures r.Failure? ==> r.error == IndexError
  {
    if i < |xs| then Success(xs[i]) else Failure(IndexError)
  }
}

=== FILE: search_options.dfy ===
/**
 * The option objects the congressional search form is read into: a status or
 * bill-type `Choice`, a congress `<option>` (`CongressOption`) and a committee
 * `<option>` (`CommiteeOption`). Each is built from the strings the browser
 * hands back for the element (`value`, `innerHTML`); the `'__ALL__'` option is
 * the form's catch-all entry, whose getters refuse to answer.
 */
module SearchOptions {
  import opened Results
  import opened PyStr
  import opened Text

  /** The `value` attribute of the catch-all option. */
  const AllValue: string := "__ALL__"

  /** `check_value()`: raises on the catch-all option, otherwise hands `x` through. */
  function Guarded<T>(value: string, x: T): (r: Result<T>)
    ensures r.Failure? <==> value == AllValue
    ensures r.Failure? ==> r.error == ValueIsAll
    ensures r.Success? ==> r.value == x
  {
    if value == AllValue then Failure(ValueIsAll) else Success(x)
  }

  // ---------------------------------------------------------------- Choice

  /** A check-box choice: its label's name and its count with the brackets removed. */
  datatype Choice = Choice(name: string, count: string)

  /** `Choice.__init__` given the `innerHTML` of the label's name and count elements. */
  function ParseChoice(name: string, countHtml: string): (c: Choice)
    ensures c.name == name
    ensures c.count == Without(Without(countHtml, '('), ')')
    ensures '(' !in c.count && ')' !in c.count
  {
    Choice(name, RemoveParens(countHtml))
  }

  // ---------------------------------------------------------------- CongressOption

  /** The attributes `__init__` sets for an option other than the catch-all. */
  datatype CongressDetails = CongressDetails(congress: string, startYear: string, endYear: string, bills: string)

  datatype CongressOption = CongressOption(value: string, details: Option<CongressDetails>) {
    /** As `__init__` leaves the object: the parsed attributes exist exactly when the value is not the sentinel. */
    predicate Constructed() {
      details.None? <==> value == AllValue
    }
  }

  /** The text between the first and the second `': '` of the option text. */
  function Period(innerHtml: string): string {
    Head(Tail(innerHtml, ": "), ": ")
  }

  /** The first nine characters of `Period`: the `start-end` years. */
  function YearsText(innerHtml: string): string {
    Slice(Period(innerHtml), 0, 9)
  }

  /** `CongressOption.__init__` given the option's `value` and `innerHTML`. */
  function ParseCongressOption(value: string, innerHtml: string): (r: Result<CongressOption>)
    ensures r.Success? ==> r.value.value == value && r.value.Constructed()
    ensures r.Failure? <==> value != AllValue && (!Occurs(innerHtml, ": ") || !Occurs(YearsText(innerHtml), "-"))
    ensures r.Failure? ==> r.error == IndexError
    ensures r.Success? && value != AllValue ==>
      var d := r.value.details.value;
      && d.congress == Head(innerHtml, ": ")
      && d.startYear == Head(YearsText(innerHtml), "-")
      && d.endYear == Head(Tail(YearsText(innerHtml), "-"), "-")
      && '(' !in d.bills && ')' !in d.bills
  {
    if value == AllValue then Success(CongressOption(value, None))
    else
      var splitIh := Split(innerHtml, ": ");
      var second :- Index(splitIh, 1);
      var startToEndYear := Slice(second, 0, 9);
      var splitYears := Split(startToEndYear, "-");
      var endYear :- Index(splitYears, 1);
      var cleaned := RemoveParens(Strip(Replace(second, startToEndYear, "")));
      var bills := Replace(cleaned, "bills", "");
      assert '(' !in bills && ')' !in bills by {
        forall c | c in bills
          ensures c in cleaned
        {
          DeleteKeepsChars(cleaned, "bills", c);
        }
      }
      Success(CongressOption(value, Some(CongressDetails(splitIh[0], splitYears[0], endYear, bills))))
  }

  /** `get_congress_meeting()`. */
  function CongressMeeting(o: CongressOption): (r: Result<string>)
    requires o.Constructed()
    ensures r.Failure? <==> o.value == AllValue
    ensures r.Failure? ==> r.error == ValueIsAll
    ensures r.Success? ==> r.value == o.details.value.congress
  {
    if o.value == AllValue then Failure(ValueIsAll) else Success(o.details.value.congress)
  }

  /** `get_start_year()`. */
  function CongressStartYear(o: CongressOption): (r: Result<string>)
    requires o.Constructed()
    ensures r.Failure? <==> o.value == AllValue
    ensures r.Failure? ==> r.error == ValueIsAll
    ensures r.Success? ==> r.value == o.details.value.startYear
  {
    if o.value == AllValue then Failure(ValueIsAll) else Success(o.details.value.startYear)
  }

  /** `get_end_year()`. */
  function CongressEndYear(o: CongressOption): (r: Result<string>)
    requires o.Constructed()
    ensures r.Failure? <==> o.value == AllValue
    ensures r.Failure? ==> r.error == ValueIsAll
    ensures r.Success? ==> r.value == o.details.value.endYear
  {
    if o.value == AllValue then Failure(ValueIsAll) else Success(o.details.value.endYear)
  }

  /** `get_bills()`. */
  function CongressBills(o: CongressOption): (r: Result<string>)
    requires o.Constructed()
    ensures r.Failure? <==> o.value == AllValue
    ensures r.Failure? ==> r.error == ValueIsAll
    ensures r.Success? ==> r.value == o.details.value.bills
  {
    if o.value == AllValue then Failure(ValueIsAll) else Success(o.details.value.bills)
  }

  /** `get_value()`: the one getter without the sentinel check, so it answers for every option. */
  function CongressValue(o: CongressOption): string
  {
    o.value
  }

  /** The catch-all congress option is built from any text, keeps its value, and refuses every other getter. */
  lemma CatchAllCongressOption(innerHtml: string)
    ensures ParseCongressOption(AllValue, innerHtml).Success?
    ensures var o := ParseCongressOption(AllValue, innerHtml).value;
      && CongressValue(o) == AllValue
      && CongressMeeting(o) == Failure(ValueIsAll)
      && CongressStartYear(o) == Failure(ValueIsAll)
      && CongressEndYear(o) == Failure(ValueIsAll)
      && CongressBills(o) == Failure(ValueIsAll)
  {
  }

  /** Decimal digits only. */
  predicate AllDigits(s: string) {
    forall k :: 0 <= k < |s| ==> '0' <= s[k] <= '9'
  }

  /** Deleting a leading pattern whose `i`-th character never appears afterwards leaves the rest. */
  lemma DeleteLeading(p: string, rest: string, i: nat)
    requires i < |p| && p[i] !in rest
    ensures Replace(p + rest, p, "") == rest
  {
    var s := p + rest;
    assert OccursAt(s, p, 0);
    FindAt(s, p, 0);
    DeleteUnfold(s, p);
    assert Head(s, p) == "" && Tail(s, p) == rest;
    MissingChar(rest, p, i);
  }

  /** Dropping the brackets around `"(<n> bills)"`. */
  lemma UnbracketCount(n: string)
    requires AllDigits(n)
    ensures RemoveParens("(" + n + " bills)") == n + " bills"
  {
    var plain := n + " bills";
    assert forall k :: 0 <= k < |plain| ==> plain[k] != '(' && plain[k] != ')';
    assert "(" + n + " bills)" == "(" + plain + ")";
    RemoveEnclosingParens(plain);
  }

  /** Deleting the word from `"<n> bills"` keeps the space before it. */
  lemma DropBillsWord(n: string)
    requires AllDigits(n)
    ensures Replace(n + " bills", "bills", "") == n + " "
  {
    var plain, kept := n + " bills", n + " ";
    assert plain == kept + "bills";
    assert OccursAt(plain, "bills", |kept|);
    FindAt(plain, "bills", |kept|);
    DeleteUnfold(plain, "bills");
    assert Head(plain, "bills") == kept && Tail(plain, "bills") == "";
  }

  /** The clean-up of `" (<n> bills)"`: strip, drop brackets, drop the word. */
  lemma CleanBillCount(n: string)
    requires AllDigits(n)
    ensures Replace(RemoveParens(Strip(" (" + n + " bills)")), "bills", "") == n + " "
  {
    var bracketed := "(" + n + " bills)";
    assert " (" + n + " bills)" == " " + bracketed + "";
    StripSurrounded(" ", bracketed, "");
    UnbracketCount(n);
    DropBillsWord(n);
  }

  /** The colon-space after the congress is the only one in a typical option text. */
  lemma TypicalCongressColon(congress: string, rest: string)
    requires ':' !in congress && ':' !in rest
    ensures Split(congress + ": " + rest, ": ") == [congress, rest]
  {
    SplitOnce(congress, ": ", rest, 0);
  }

  /** `"<yyyy>-<yyyy>"` splits at its dash into the two years. */
  lemma TypicalYears(y1: string, y2: string)
    requires AllDigits(y1) && AllDigits(y2)
    ensures Split(y1 + "-" + y2, "-") == [y1, y2]
  {
    assert '-' !in y1 && '-' !in y2;
    SplitOnce(y1, "-", y2, 0);
  }

  /** The text after the colon: the first nine characters are the period, and deleting it leaves the count. */
  lemma TypicalPeriod(y1: string, y2: string, tail: string)
    requires |y1| == 4 && |y2| == 4 && AllDigits(y1) && AllDigits(y2) && '-' !in tail
    ensures Slice(y1 + "-" + y2 + tail, 0, 9) == y1 + "-" + y2
    ensures Replace(y1 + "-" + y2 + tail, y1 + "-" + y2, "") == tail
  {
    var years := y1 + "-" + y2;
    assert y1 + "-" + y2 + tail == years + tail;
    assert years[4] == '-';
    DeleteLeading(years, tail, 4);
  }

  /** How the text pieces of `"<congress>: <yyyy>-<yyyy><tail>"` come apart. */
  lemma TypicalCongressText(congress: string, y1: string, y2: string, tail: string)
    requires ':' !in congress && ':' !in tail && '-' !in tail
    requires |y1| == 4 && |y2| == 4 && AllDigits(y1) && AllDigits(y2)
    ensures var years := y1 + "-" + y2;
      && Split(congress + ": " + y1 + "-" + y2 + tail, ": ") == [congress, years + tail]
      && Slice(years + tail, 0, 9) == years
      && Split(years, "-") == [y1, y2]
      && Replace(years + tail, years, "") == tail
  {
    var years := y1 + "-" + y2;
    var rest := years + tail;
    assert congress + ": " + y1 + "-" + y2 + tail == congress + ": " + rest;
    assert ':' !in years;
    TypicalCongressColon(congress, rest);
    TypicalYears(y1, y2);
    TypicalPeriod(y1, y2, tail);
  }

  /**
   * An option laid out as the results page prints it, `"<congress>: <yyyy>-<yyyy> (<n> bills)"`,
   * yields the congress, both years, and the count followed by the space that stood before `bills`.
   */
  lemma ParseTypicalCongressOption(value: string, congress: string, y1: string, y2: string, n: string)
    requires value != AllValue
    requires ':' !in congress
    requires |y1| == 4 && |y2| == 4 && AllDigits(y1) && AllDigits(y2) && AllDigits(n)
    ensures ParseCongressOption(value, congress + ": " + y1 + "-" + y2 + " (" + n + " bills)")
         == Success(CongressOption(value, Some(CongressDetails(congress, y1, y2, n + " "))))
  {
    var tail := " (" + n + " bills)";
    assert ':' !in tail && '-' !in tail by {
      assert forall k :: 0 <= k < |tail| ==> tail[k] != ':' && tail[k] != '-';
    }
    assert congress + ": " + y1 + "-" + y2 + " (" + n + " bills)" == congress + ": " + y1 + "-" + y2 + tail;
    TypicalCongressText(congress, y1, y2, tail);
    CleanBillCount(n);
  }

  // ---------------------------------------------------------------- CommiteeOption

  /** A committee option: the element itself, its value, and its text cut around the first `'('`. */
  datatype CommitteeOption<E> = CommitteeOption(option: E, value: string, name: string, bills: string)

  /** `CommiteeOption.__init__` given the element, its `value` and its `innerHTML`. */
  function ParseCommitteeOption<E>(option: E, value: string, innerHtml: string): (c: CommitteeOption<E>)
    ensures c.option == option && c.value == value
    ensures c.name + c.bills == innerHtml
    ensures var p := Find(innerHtml, "(");
      && (p >= 1 ==> c.name == innerHtml[..p - 1] && c.bills == innerHtml[p - 1..])
      && (p == 0 ==> |c.bills| == 1)
      && (p == -1 ==> |c.bills| == if |innerHtml| < 2 then |innerHtml| else 2)
  {
    var openBracketPosition := Find(innerHtml, "(");
    SliceConcat(innerHtml, openBracketPosition - 1);
    CommitteeOption(option, value, Slice(innerHtml, 0, openBracketPosition - 1), SliceFrom(innerHtml, openBracketPosition - 1))
  }

  /** `get_option()`. */
  function CommitteeElement<E>(o: CommitteeOption<E>): (r: Result<E>)
    ensures r.Failure? <==> o.value == AllValue
    ensures r.Failure? ==> r.error == ValueIsAll
    ensures r.Success? ==> r.value == o.option
  {
    Guarded(o.value, o.option)
  }

  /** `get_value()`: unlike the congress option's, this one checks for the sentinel too. */
  function CommitteeValue<E>(o: CommitteeOption<E>): (r: Result<string>)
    ensures r.Failure? <==> o.value == AllValue
    ensures r.Failure? ==> r.error == ValueIsAll
    ensures r.Success? ==> r.value == o.value
  {
    Guarded(o.value, o.value)
  }

  /** `get_name()`. */
  function CommitteeName<E>(o: CommitteeOption<E>): (r: Result<string>)
    ensures r.Failure? <==> o.value == AllValue
    ensures r.Failure? ==> r.error == ValueIsAll
    ensures r.Success? ==> r.value == o.name
  {
    Guarded(o.value, o.name)
  }

  /** `get_bills_introducted()`. */
  function CommitteeBillsIntroduced<E>(o: CommitteeOption<E>): (r: Result<string>)
    ensures r.Failure? <==> o.value == AllValue
    ensures r.Failure? ==> r.error == ValueIsAll
    ensures r.Success? ==> r.value == o.bills
  {
    Guarded(o.value, o.bills)
  }

  /** `"<name> (<n>)"` splits into the name and `" (<n>)"`: the space before the bracket goes with the count. */
  lemma ParseTypicalCommitteeOption<E>(option: E, value: string, name: string, count: string)
    requires '(' !in name
    ensures var c := ParseCommitteeOption(option, value, name + " (" + count + ")");
      c.name == name && c.bills == " (" + count + ")"
  {
    var ih := name + " (" + count + ")";
    assert OccursAt(ih, "(", |name| + 1);
    FindAt(ih, "(", |name| + 1);
  }

  /** Text without a `'('` loses its last two characters to the count (`s[0:-2]`, `s[-2:]`). */
  lemma CommitteeOptionWithoutBracket<E>(option: E, value: string, innerHtml: string)
    requires '(' !in innerHtml && |innerHtml| >= 2
    ensures var c := ParseCommitteeOption(option, value, innerHtml);
      c.name == innerHtml[..|innerHtml| - 2] && c.bills == innerHtml[|innerHtml| - 2..]
  {
    OccursChar(innerHtml, '(');
  }
}

=== FILE: text.dfy ===
/**
 * The clean-up step the scraper applies to counts and party breakdowns:
 * `.replace('(', '').replace(')', '')`.
 */
module Text {
  import opened PyStr

  /** `s.replace('(', '').replace(')', '')`. */
  function RemoveParens(s: string): (r: string)
    ensures r == Without(Without(s, '('), ')')
    ensures '(' !in r && ')' !in r
    ensures forall c :: c in r ==> c in s
  {
    var once := Replace(s, "(", "");
    ReplaceCharIsWithout(s, '(');
    ReplaceCharIsWithout(once, ')');
    WithoutRemovesAll(s, '(');
    WithoutRemovesAll(once, ')');
    Replace(once, ")", "")
  }

  /** Text without brackets comes through unchanged. */
  lemma RemoveParensKeepsPlainText(s: string)
    requires '(' !in s && ')' !in s
    ensures RemoveParens(s) == s
  {
    WithoutAbsent(s, '(');
    WithoutAbsent(s, ')');
  }

  /** A bracket pair around bracket-free text is dropped and the text kept. */
  lemma RemoveEnclosingParens(m: string)
    requires '(' !in m && ')' !in m
    ensures RemoveParens("(" + m + ")") == m
  {
    var inner := m + [')'];
    var s := "(" + m + ")";
    assert '(' !in inner;
    assert s == ['('] + inner;
    WithoutConcat(['('], inner, '(');
    assert Without(['('], '(') == "";
    WithoutAbsent(inner, '(');
    assert Without(s, '(') == inner;
    WithoutConcat(m, [')'], ')');
    assert Without([')'], ')') == "";
    WithoutAbsent(m, ')');
    assert Without(inner, ')') == m;
  }
}
